=== FILE: README.md ===
# Mermaid syntax highlighter and overlay editor, modelled in Dafny

This project models the syntax highlighter of the Mermaid editor
(`public/syntax-highlighter.js`). It has two layers.

- **`highlightSyntax` and `escapeHtml`.** Eight pattern rules each find
  their matches in the text. All matches go into one pool, which is
  stable-sorted by start offset. A greedy left-to-right sweep then drops every
  match that starts before the end of the last kept one. The output is the
  text rebuilt as HTML-escaped plain gaps interleaved with
  `<span class="hl-<category>">` wrappers around the escaped matches.
- **The editor state machine of `createSyntaxEditor`.** The state holds the
  textarea's value, selection and scroll offsets, the markup and gutter labels
  the editor writes, the highlight layer's offset, the gutter's scroll offset,
  and the number of `onChange` calls so far. The handlers `update`,
  `syncScroll`, the `input`, `scroll` and `keydown` listeners, `setValue`,
  `getValue` and creation are pure transitions between such states.

The regular-expression engine is an input. For each rule it supplies the list
of `(start, end)` matches it finds (`Matching.ScansValid`): each match is
non-empty and lies inside the text, and a rule's matches are ascending and do
not overlap. The editor receives the engine as a function of subset type
`Editor.Engine` that meets this for every text. Pooling, sorting, filtering,
escaping and assembling are modelled exactly.

To state the round trip and the tag properties, `Html.Read` splits markup into
tags and characters. `<...>` is a tag. `&amp;`, `&lt;` and `&gt;` are the
characters they encode. Anything else stands for itself. `Read` is the model's
own reader. A browser agrees with it on markup in which every `&` starts one of
those three entities, every `<` starts a wrapper tag, and no CR or U+0000
occurs. The highlighter emits only such markup for text without CR or U+0000.
`TextContent` and `Tags` are the two projections of what it reads.

Assigning a textarea's `value` normalizes line breaks: CR LF and lone CR both
become LF. The model applies this in `Editor.Assign` (`Lines.NormalizeNewlines`),
so `setValue` and creation store the normalized string. `Editor.Valid` records
the browser's guarantee that a textarea value never holds a CR.

Modules, one per file: `Patterns` (patterns.dfy), `Html` (html.dfy),
`Matching` (matching.dfy), `StableSort` (stable_sort.dfy), `Overlap`
(overlap.dfy), `Highlighter` (highlighter.dfy), `Lines` (lines.dfy),
`Editor` (editor.dfy).

One quirk of the code is modelled as written. The comment on line 158
implies that only programmatic updates skip `onChange`. The `input` listener,
however, registers `update` directly (line 135), so `update` receives the
Event object as `skipOnChange`. That object is truthy, so typing never calls
`onChange`. Only the Tab handler calls `update()` with no argument (line 146),
so only Tab calls it. `Editor.Input` and `Editor.RunNotifiesOnlyOnTab` state
this.

## Model

| member | source | states |
|---|---|---|
| Patterns.ClassNameAllowed | public/syntax-highlighter.js:4-13 | every category's class name is one of the eight declared names (comment, keyword, direction, control, arrow, string, label, decision) and contains no `>` or `"` |
| Patterns.ClassNamesCorrespond | public/syntax-highlighter.js:4-13 | distinct categories have distinct class names, and every allowed class name belongs to one of the declared rules, so a wrapper's class identifies its rule |
| Patterns.Priority | public/syntax-highlighter.js:4-13 | a category's priority is the index of its rule in the declaration order |
| Html.ReplaceAll | public/syntax-highlighter.js:76-79 | one global replace pass: the result holds no character that was neither in the input (other than the replaced one) nor in the replacement, and an input without the character is returned unchanged |
| Html.EscapeHtml | public/syntax-highlighter.js:75-80 | the escaped text holds no raw `<` or `>`, and text without `&`, `<`, `>` is returned unchanged |
| Html.EscapeHtmlIsPerCharacter | public/syntax-highlighter.js:75-80 | the three passes (`&` first) equal escaping each character on its own: `&`→`&amp;`, `<`→`&lt;`, `>`→`&gt;`, everything else unchanged |
| Html.EscapeRoundTrip | public/syntax-highlighter.js:75-80 | decoding the escaped text gives back the input, and the escaped text contains no tag |
| Matching.Pool | public/syntax-highlighter.js:29-40 | every pooled candidate is some rule's match, labelled with that rule's category |
| Matching.PoolComplete | public/syntax-highlighter.js:29-40 | every match of every rule is in the pool, labelled with its rule's category |
| Matching.PoolShape | public/syntax-highlighter.js:29-40 | pooled candidates are non-empty slices of the text, and candidates with equal starts come in rule-declaration order |
| StableSort.SortByStart | public/syntax-highlighter.js:43 | the sorted list is in non-decreasing start order and is a permutation (same multiset) of the pool |
| StableSort.SortIsStable | public/syntax-highlighter.js:43 | for every offset, the candidates starting there keep their relative order through the sort |
| StableSort.SortKeepsTieOrder | public/syntax-highlighter.js:29-43 | if equal-start candidates are in rule order before sorting, they still are after it |
| Overlap.Keep | public/syntax-highlighter.js:46-53 | the kept candidates come from the input, the first kept one starts at or after `lastEnd`, and for non-empty candidates the kept ones are pairwise disjoint and all start at or after `lastEnd` |
| Overlap.Resolve | public/syntax-highlighter.js:46-53 | the `filtered` array, swept with `lastEnd` starting at -1: every kept candidate comes from the sorted list, the first candidate (at a non-negative offset) is always kept, and for non-empty matches the kept ones do not overlap |
| Overlap.ResolveStep | public/syntax-highlighter.js:46-53 | in the loop's own order: a candidate appended to the list is kept iff its start is at least the end of the last kept candidate (or -1 when none is kept), and otherwise the kept list is unchanged |
| Overlap.ResolveShape | public/syntax-highlighter.js:46-53 | the kept list is a subsequence of the sorted list, pairwise disjoint, in strictly increasing start order, and always keeps the first candidate |
| Overlap.ResolveCovers | public/syntax-highlighter.js:46-53 | on a sorted list, every dropped candidate starts inside a kept span that starts no later than it does |
| Overlap.KeepTieWinner | public/syntax-highlighter.js:46-53 | when the ties are in rule order, a kept span's rule is declared no later than any candidate with the same start |
| Highlighter.TokensShape | public/syntax-highlighter.js:29-53 | the spans that end up highlighted lie in the text, do not overlap, start at strictly increasing offsets and are matches of the rules |
| Highlighter.Highlight | public/syntax-highlighter.js:18-73 | no contract of its own: `highlightSyntax` is pooling, sorting, filtering and assembling in turn, and what its markup holds is stated by `HighlightRoundTrip`, `HighlightLayout` and `HighlightTags` |
| Highlighter.Assemble | public/syntax-highlighter.js:55-72 | no contract of its own: the output loop over the kept spans, `pos` being the end of the previous one; what it emits is stated by `ReadAssemble` |
| Highlighter.ReadAssemble | public/syntax-highlighter.js:55-72 | the output loop's markup reads, in order, as each kept span's gap characters (only when the span starts after the previous end), its opening tag, its characters and its closing tag, then the characters after the last span |
| Highlighter.HighlightRoundTrip | public/syntax-highlighter.js:56-72 | dropping the wrappers and decoding the entities of the output gives back exactly the input text |
| Highlighter.HighlightLayout | public/syntax-highlighter.js:56-72 | the output reads, in order, as each kept span's preceding gap characters, its opening tag, its characters and its closing tag, followed by the characters after the last span |
| Highlighter.HighlightTags | public/syntax-highlighter.js:56-72 | the output's tags are exactly each kept span's `span class="hl-…"` opening tag followed by `/span`, in order, and each class is `hl-` plus one of the eight declared names |
| Highlighter.WrapperTags | public/syntax-highlighter.js:64 | two tags per kept span, each either the closing tag or the opening tag for some kept span's category |
| Highlighter.NoCandidatesIsEscape | public/syntax-highlighter.js:56-72 | with no matches at all, the output is just the escaped text |
| Highlighter.EarlierRuleWins | public/syntax-highlighter.js:29-53 | no rule declared before a kept span's rule has a match starting at the kept span's start |
| Highlighter.GreedyClaim | public/syntax-highlighter.js:46-53 | every match of every rule is either kept or starts inside a kept span that starts no later |
| Lines.Split | public/syntax-highlighter.js:110 | `split('\n')` yields at least one piece, and no piece contains a newline |
| Lines.SplitJoin | public/syntax-highlighter.js:110 | joining the pieces with newlines gives back the text |
| Lines.LineCount | public/syntax-highlighter.js:110 | the line count is the number of newlines plus one |
| Lines.LineLabels | public/syntax-highlighter.js:111-113 | the gutter has exactly one label per line, numbered 1 to the line count in order |
| Lines.LineCountExamples | public/syntax-highlighter.js:110 | the empty text has one line, and `a\nb\nc` has three |
| Editor.SyncScroll | public/syntax-highlighter.js:122-132 | afterwards the highlight layer's offset is the negated scroll offsets and the gutter's scrollTop equals the textarea's; nothing else changes |
| Editor.SyncScrollIdempotent | public/syntax-highlighter.js:122-132 | syncing twice equals syncing once, and an aligned editor is left unchanged |
| Editor.Update | public/syntax-highlighter.js:105-119 | the gutter has newline-count plus one labels numbered 1..n, the layers are aligned, value, selection and scroll are unchanged, and `onChange` is called once iff it was supplied and the argument is not truthy |
| Editor.TabbedValue | public/syntax-highlighter.js:144 | the text before the selection is kept, two spaces replace the selection, the text after it follows, the length is old length minus selection length plus 2, and no CR is introduced |
| Editor.UpdateRepaints | public/syntax-highlighter.js:105-113 | after `update` the highlight layer's markup reads back as the current value followed by one newline, and the editor is rendered for its value |
| Editor.Tab | public/syntax-highlighter.js:139-148 | the selection is replaced by two spaces, the text before and after it is unchanged, the length becomes old length minus selection length plus 2, both caret ends sit at start+2, the layers are aligned, and `onChange` is called once if supplied |
| Editor.KeyDown | public/syntax-highlighter.js:139-148 | keys other than Tab change nothing; Tab calls `onChange` once if supplied |
| Editor.Input | public/syntax-highlighter.js:135 | after typing, the editor holds the new value and selection with aligned layers, and `onChange` is not called, because the Event passed as `skipOnChange` is truthy |
| Editor.Scroll | public/syntax-highlighter.js:136 | after a scroll event the layer's offset is the negated new offsets and the gutter follows; text, markup and the call count are unchanged |
| Lines.NormalizeNewlines | public/syntax-highlighter.js:102 | the value a textarea holds after an assignment has no CR, equals the assigned string when that had none, keeps every other character in order (deleting CR and LF from both gives the same string), and has one LF for each LF and each lone CR of the assigned string (a CR LF pair counts once) |
| Lines.NormalizeIsTwoPasses | public/syntax-highlighter.js:102 | normalization equals the HTML standard's two steps: replace every CR LF pair with LF, then every remaining CR with LF |
| Lines.NormalizeExamples | public/syntax-highlighter.js:110 | `a\r\nb` and `a\rb` both become `a\nb`, so each shows two gutter lines |
| Editor.Assign | public/syntax-highlighter.js:157 | assigning `value` (here, and likewise at lines 102 and 144) stores the normalized string; a changed value puts the caret at its end, an unchanged one leaves the editor as it was |
| Editor.GetValue | public/syntax-highlighter.js:155 | no contract of its own: `getValue` returns the textarea's value; `SetValue` and `Create` state what it returns after an assignment, and `GetValueShown` that the highlight layer's markup reads back as it |
| Editor.GetValueShown | public/syntax-highlighter.js:105-113 | on a rendered editor, the highlight layer's markup less its trailing newline reads back, through `Html.Read`, as the value `getValue` returns, and the gutter has one label per line of it |
| Editor.SetValue | public/syntax-highlighter.js:154-159 | `getValue` returns the assigned string with line breaks normalized to LF (the string itself when it has no CR), the layers are aligned, and `onChange` is not called |
| Editor.Create | public/syntax-highlighter.js:85-152 | a new editor holds the initial value with line breaks normalized to LF (the value itself when it has no CR), is aligned, and has called `onChange` zero times |
| Editor.CreateRepaints | public/syntax-highlighter.js:102-152 | a new editor is rendered for its value: the markup reads back through `Html.Read` as the value plus a newline, with one gutter label per line |
| Editor.ApplyEffect | public/syntax-highlighter.js:134-159 | one event calls `onChange` exactly when it is a Tab press and a callback was supplied |
| Editor.ApplyRepaints | public/syntax-highlighter.js:134-159 | after any one event, a rendered editor is still rendered for its (possibly new) value |
| Editor.RunNotifiesOnlyOnTab | public/syntax-highlighter.js:105-159 | over any sequence of typing, scrolling, key presses and `setValue` calls, `onChange` is called exactly once per Tab press (when supplied) and never otherwise |
| Editor.RunRepaints | public/syntax-highlighter.js:105-159 | over any sequence of events, the layers of a rendered editor keep showing the current value |

## Left out

- The regular expressions themselves: `\b`, the `m` flag with `$`, and the
  order of alternatives (for example, `stateDiagram` shadows
  `stateDiagram-v2` on line 6). The regex engine is a foreign engine. Its
  results are an input, constrained only by what a global `exec` loop always
  yields.
- The `text` field of a match object. It is always the slice `[start, end)` of
  the text, and the model takes that slice directly.
- DOM plumbing: building the container markup, `querySelector`,
  `addEventListener`, `preventDefault` and `focus()`. The model keeps only the
  values the code writes.
- Editor.SyncScroll: `Math.round` of fractional scroll offsets is not modelled,
  because that is floating point. Scroll offsets are whole pixels already.
- Editor.Update: the gutter labels are kept as numbers. Their rendering as
  `<span>n</span>` decimal markup is not modelled.
- Editor.SyncScroll: the layer offset is kept as a pair of integers, not as
  the `translate3d(...)` CSS string.
- Browser behaviour outside the source is a parameter or an assumption. The
  new value and selection after typing, and the scroll offsets, come in as
  parameters. A browser clamping the scroll offsets after the content changes
  is not modelled. Assigning a value normalizes its line breaks, and a
  changed value moves the caret to its end, as browsers do (`Editor.Assign`).
- The unused `html` variable in `highlightSyntax` (lines 20-23). It does not
  affect the result.
- `public/viewer.js` (Mermaid rendering, zoom, file open/save, export) and
  `scripts/copy-assets.js` (build copying). Both are I/O and foreign library
  calls.
- UTF-16: JavaScript strings are sequences of UTF-16 code units, while a Dafny
  `char` is a Unicode scalar value. Match offsets, `selectionStart` and Tab's
  `start + 2` therefore count scalar values. A character outside the Basic
  Multilingual Plane has length 1 here and 2 in JavaScript, and lone
  surrogates cannot be represented.

=== FILE: editor.dfy ===
/** The state kept by `createSyntaxEditor`: the textarea's value, selection
    and scroll offsets, the values the editor writes into the highlight layer
    and the line-number gutter, and how many times it has called `onChange`.
    Every handler is a pure transition from one state to the next. */
module Editor {
  import opened Patterns
  import opened Html
  import opened Matching
  import opened Highlighter
  import opened Lines

  /** No rule matches anything. */
  const NoMatches: seq<seq<Occurrence>> := [[], [], [], [], [], [], [], []]

  /** What any regular-expression engine yields: for every text, one valid
      scan per rule. */
  ghost predicate EngineValid(f: string -> seq<seq<Occurrence>>) {
    forall t :: ScansValid(t, f(t))
  }

  /** The regular-expression engine: for any text, the matches of each rule. */
  type Engine = f: string -> seq<seq<Occurrence>> | EngineValid(f)
    witness (t: string) => NoMatches

  /** The value `update` receives as `skipOnChange`: nothing (the default
      `false` applies), a boolean, or the `input` Event object, which the
      listener passes along because it registers `update` directly. */
  datatype SkipArg = Omitted | Flag(b: bool) | InputEvent

  /** Whether `!skipOnChange` is false, i.e. the argument is truthy. */
  predicate Skips(a: SkipArg) {
    match a
    case Omitted => false
    case Flag(b) => b
    case InputEvent => true
  }

  datatype Editor = Editor(
    value: string,            // textarea.value
    selStart: nat,            // textarea.selectionStart
    selEnd: nat,              // textarea.selectionEnd
    scrollLeft: int,          // textarea.scrollLeft, in whole pixels
    scrollTop: int,           // textarea.scrollTop, in whole pixels
    markup: string,           // innerHTML of the highlight layer's code element
    lineLabels: seq<nat>,     // the numbers shown in the gutter, in order
    overlayX: int,            // horizontal translate3d offset of the highlight layer
    overlayY: int,            // vertical translate3d offset of the highlight layer
    gutterScrollTop: int,     // scrollTop of the line-number gutter
    hasOnChange: bool,        // whether an onChange callback was supplied
    changeCalls: nat)         // how many times onChange has been called

  /** What the browser guarantees of a textarea: the selection lies inside
      the value, start first, and the value holds no CR (line breaks are
      normalized to LF). */
  predicate Valid(e: Editor) {
    && e.selStart <= e.selEnd <= |e.value|
    && '\r' !in e.value
  }

  /** The highlight layer and the gutter sit exactly under the textarea's
      scrolled content: a point at content offset (x, y) appears at the same
      place in both layers, and gutter line y at the textarea's line y. */
  predicate Aligned(e: Editor) {
    && e.overlayX + e.scrollLeft == 0
    && e.overlayY + e.scrollTop == 0
    && e.gutterScrollTop == e.scrollTop
  }

  /** What the layers show is what the textarea holds: the highlighted value
      plus a trailing newline, one gutter label per line, and aligned layers. */
  predicate Rendered(e: Editor, engine: Engine) {
    && e.markup == Highlight(e.value, engine(e.value)) + "\n"
    && e.lineLabels == LineLabels(LineCount(e.value))
    && Aligned(e)
  }

  /** `syncScroll`: moves the highlight layer by the negated scroll offsets
      and gives the gutter the textarea's vertical offset; nothing else changes. */
  function SyncScroll(e: Editor): (r: Editor)
    ensures Aligned(r)
    ensures r.(overlayX := e.overlayX, overlayY := e.overlayY, gutterScrollTop := e.gutterScrollTop) == e
  {
    e.(overlayX := -e.scrollLeft, overlayY := -e.scrollTop, gutterScrollTop := e.scrollTop)
  }

  /** Scrolling twice is scrolling once, and an aligned editor is left as it is. */
  lemma SyncScrollIdempotent(e: Editor)
    ensures SyncScroll(SyncScroll(e)) == SyncScroll(e)
    ensures Aligned(e) ==> SyncScroll(e) == e
  {
  }

  /** `update(skipOnChange)`: repaints the highlight layer and the gutter from
      the current value, re-syncs the scroll, and only then calls `onChange`,
      exactly once, when one was supplied and the argument is not truthy.
      What the repainted highlight layer shows is stated by `UpdateRepaints`. */
  function Update(e: Editor, engine: Engine, skip: SkipArg): (r: Editor)
    ensures Aligned(r)
    ensures |r.lineLabels| == CountNewlines(e.value) + 1
    ensures forall i | 0 <= i < |r.lineLabels| :: r.lineLabels[i] == i + 1
    ensures r.value == e.value && r.selStart == e.selStart && r.selEnd == e.selEnd
    ensures r.scrollLeft == e.scrollLeft && r.scrollTop == e.scrollTop && r.hasOnChange == e.hasOnChange
    ensures r.changeCalls == e.changeCalls + (if e.hasOnChange && !Skips(skip) then 1 else 0)
  {
    var text := e.value;
    var painted := e.(markup := Highlight(text, engine(text)) + "\n", lineLabels := LineLabels(LineCount(text)));
    var synced := SyncScroll(painted);
    if e.hasOnChange && !Skips(skip) then synced.(changeCalls := synced.changeCalls + 1) else synced
  }

  /** After `update` the layers show what the textarea holds: the highlight
      layer's markup reads back as the value followed by one newline, and the
      gutter has a label per line. */
  lemma UpdateRepaints(e: Editor, engine: Engine, skip: SkipArg)
    ensures Rendered(Update(e, engine, skip), engine)
    ensures var m := Update(e, engine, skip).markup;
      |m| > 0 && TextContent(m[..|m| - 1]) == e.value && m[|m| - 1] == '\n'
  {
    var text := e.value;
    HighlightRoundTrip(text, engine(text));
    var highlighted := Highlight(text, engine(text));
    assert (highlighted + "\n")[..|highlighted|] == highlighted;
  }

  /** The value after a Tab with the selection [start, end): the selection is
      replaced by two spaces. */
  function TabbedValue(value: string, start: nat, end: nat): (v: string)
    requires start <= end <= |value|
    ensures |v| == |value| - (end - start) + 2
    ensures v[..start] == value[..start]
    ensures v[start..start + 2] == "  "
    ensures v[start + 2..] == value[end..]
    ensures '\r' !in value ==> '\r' !in v
  {
    assert forall c | c in value[..start] + value[end..] :: c in value;
    value[..start] + "  " + value[end..]
  }

  /** The `keydown` handler on Tab: assigns the value with the selection
      replaced by two spaces, puts the caret right after them, and calls
      `update()` with no argument, so `onChange` fires. */
  function Tab(e: Editor, engine: Engine): (r: Editor)
    requires Valid(e)
    ensures Valid(r) && Aligned(r)
    ensures |r.value| == |e.value| - (e.selEnd - e.selStart) + 2
    ensures r.value[..e.selStart] == e.value[..e.selStart]
    ensures r.value[e.selStart..e.selStart + 2] == "  "
    ensures r.value[e.selStart + 2..] == e.value[e.selEnd..]
    ensures r.selStart == e.selStart + 2 && r.selEnd == e.selStart + 2
    ensures r.changeCalls == e.changeCalls + (if e.hasOnChange then 1 else 0)
  {
    var spaced := Assign(e, TabbedValue(e.value, e.selStart, e.selEnd));
    Update(TabCaret(spaced, e.selStart), engine, Omitted)
  }

  /** Both ends of the selection move to just after the two inserted spaces. */
  function TabCaret(e: Editor, start: nat): Editor {
    e.(selStart := start + 2, selEnd := start + 2)
  }

  /** The `keydown` listener: Tab is handled, every other key is left to the
      browser, whose edits arrive as `input` events. */
  function KeyDown(e: Editor, engine: Engine, key: string): (r: Editor)
    requires Valid(e)
    ensures Valid(r)
    ensures key != "Tab" ==> r == e
    ensures key == "Tab" ==> r.changeCalls == e.changeCalls + (if e.hasOnChange then 1 else 0)
  {
    if key == "Tab" then Tab(e, engine) else e
  }

  /** The `input` listener: the browser has already changed the value and the
      selection (keeping both valid); `update` receives the Event, which is
      truthy, so `onChange` is not called for typed input. */
  function Input(e: Editor, engine: Engine, newValue: string, newStart: nat, newEnd: nat): (r: Editor)
    requires newStart <= newEnd <= |newValue| && '\r' !in newValue
    ensures Valid(r) && Aligned(r)
    ensures r.value == newValue && r.selStart == newStart && r.selEnd == newEnd
    ensures r.changeCalls == e.changeCalls
  {
    Update(e.(value := newValue, selStart := newStart, selEnd := newEnd), engine, InputEvent)
  }

  /** The `scroll` listener: the browser has moved the textarea, `syncScroll` follows. */
  function Scroll(e: Editor, left: int, top: int): (r: Editor)
    ensures Aligned(r) && r.overlayX == -left && r.overlayY == -top && r.gutterScrollTop == top
    ensures r.value == e.value && r.markup == e.markup && r.lineLabels == e.lineLabels
    ensures r.selStart == e.selStart && r.selEnd == e.selEnd && r.changeCalls == e.changeCalls
  {
    SyncScroll(e.(scrollLeft := left, scrollTop := top))
  }

  /** Assigning `textarea.value`: the value becomes the assigned string with
      its line breaks normalized to LF; if that differs from the old value the
      caret moves to its end, otherwise the selection is left alone. */
  function Assign(e: Editor, v: string): (r: Editor)
    requires Valid(e)
    ensures Valid(r) && r.value == NormalizeNewlines(v)
    ensures r.value == e.value ==> r == e
    ensures r.value != e.value ==> r.selStart == r.selEnd == |r.value|
  {
    var nv := NormalizeNewlines(v);
    if nv == e.value then e else e.(value := nv, selStart := |nv|, selEnd := |nv|)
  }

  /** `getValue()`: the textarea's value as it is. */
  function GetValue(e: Editor): string {
    e.value
  }

  /** What `getValue` returns is what a rendered editor's layers hold: the
      highlight layer's markup, less its trailing newline, reads back through
      `Html.Read` as the value, and the gutter has one label per line of it. */
  lemma GetValueShown(e: Editor, engine: Engine)
    requires Rendered(e, engine)
    ensures var m := e.markup;
      |m| > 0 && TextContent(m[..|m| - 1]) == GetValue(e)
    ensures |e.lineLabels| == CountNewlines(GetValue(e)) + 1
  {
    var text := e.value;
    HighlightRoundTrip(text, engine(text));
    var highlighted := Highlight(text, engine(text));
    assert (highlighted + "\n")[..|highlighted|] == highlighted;
  }

  /** `setValue(value)`: assigns the value and calls `update(true)`, so the
      layers are repainted but `onChange` is not called. */
  function SetValue(e: Editor, engine: Engine, v: string): (r: Editor)
    requires Valid(e)
    ensures Valid(r) && Aligned(r)
    ensures GetValue(r) == NormalizeNewlines(v)
    ensures '\r' !in v ==> GetValue(r) == v
    ensures r.changeCalls == e.changeCalls
  {
    Update(Assign(e, v), engine, Flag(true))
  }

  /** `createSyntaxEditor(container, initialValue, onChange)`: a fresh textarea
      scrolled to the origin is given the initial value, then `update(true)`
      and `syncScroll()` run; `onChange` is not called. */
  function Create(engine: Engine, initial: string, hasOnChange: bool): (r: Editor)
    ensures Valid(r) && Aligned(r)
    ensures GetValue(r) == NormalizeNewlines(initial) && r.hasOnChange == hasOnChange
    ensures '\r' !in initial ==> GetValue(r) == initial
    ensures r.changeCalls == 0
  {
    var blank := Editor("", 0, 0, 0, 0, "", [], 0, 0, 0, hasOnChange, 0);
    SyncScroll(Update(Assign(blank, initial), engine, Flag(true)))
  }

  /** Everything that can happen to an editor after it is created. */
  datatype Event =
    | Typed(newValue: string, newStart: nat, newEnd: nat)   // an `input` event
    | Scrolled(left: int, top: int)                          // a `scroll` event
    | Key(key: string)                                       // a `keydown` event
    | Set(v: string)                                         // a `setValue` call

  /** The browser only ever reports a selection inside the new value, and a
      value without CR. */
  predicate EventValid(ev: Event) {
    ev.Typed? ==> ev.newStart <= ev.newEnd <= |ev.newValue| && '\r' !in ev.newValue
  }

  function Apply(e: Editor, engine: Engine, ev: Event): (r: Editor)
    requires Valid(e) && EventValid(ev)
    ensures Valid(r)
  {
    match ev
    case Typed(v, s, t) => Input(e, engine, v, s, t)
    case Scrolled(l, t) => Scroll(e, l, t)
    case Key(k) => KeyDown(e, engine, k)
    case Set(v) => SetValue(e, engine, v)
  }

  /** One event calls `onChange` only if it is a Tab press with a callback
      supplied, and no event adds or removes the callback. */
  lemma ApplyEffect(e: Editor, engine: Engine, ev: Event)
    requires Valid(e) && EventValid(ev)
    ensures Apply(e, engine, ev).changeCalls ==
      e.changeCalls + (if e.hasOnChange && ev == Key("Tab") then 1 else 0)
    ensures Apply(e, engine, ev).hasOnChange == e.hasOnChange
  {
    match ev
    case Typed(v, s, t) =>
    case Scrolled(l, t) =>
    case Key(k) =>
    case Set(v) =>
  }

  /** A new editor shows its initial value. */
  lemma CreateRepaints(engine: Engine, initial: string, hasOnChange: bool)
    ensures Rendered(Create(engine, initial, hasOnChange), engine)
  {
    var blank := Editor("", 0, 0, 0, 0, "", [], 0, 0, 0, hasOnChange, 0);
    UpdateRepaints(Assign(blank, initial), engine, Flag(true));
  }

  /** Every event leaves a rendered editor rendered: typing, Tab and
      `setValue` repaint from the new value, and scrolling realigns the
      layers without touching the value. */
  lemma ApplyRepaints(e: Editor, engine: Engine, ev: Event)
    requires Valid(e) && EventValid(ev) && Rendered(e, engine)
    ensures Rendered(Apply(e, engine, ev), engine)
  {
    match ev
    case Typed(v, s, t) =>
      UpdateRepaints(e.(value := v, selStart := s, selEnd := t), engine, InputEvent);
    case Scrolled(l, t) =>
    case Key(k) =>
      if k == "Tab" {
        var spaced := Assign(e, TabbedValue(e.value, e.selStart, e.selEnd));
        UpdateRepaints(TabCaret(spaced, e.selStart), engine, Omitted);
      }
    case Set(v) =>
      UpdateRepaints(Assign(e, v), engine, Flag(true));
  }

  /** The events applied in order. */
  function Run(e: Editor, engine: Engine, evs: seq<Event>): (r: Editor)
    requires Valid(e) && forall i | 0 <= i < |evs| :: EventValid(evs[i])
    ensures Valid(r)
    decreases |evs|
  {
    if evs == [] then e else Run(Apply(e, engine, evs[0]), engine, evs[1..])
  }

  /** How many Tab key presses there are among the events. */
  function TabPresses(evs: seq<Event>): nat {
    if evs == [] then 0 else (if evs[0] == Key("Tab") then 1 else 0) + TabPresses(evs[1..])
  }

  /** Over any sequence of events `onChange` is called once per Tab press and
      never otherwise: typing, scrolling and `setValue` do not call it. */
  lemma {:induction false} RunNotifiesOnlyOnTab(e: Editor, engine: Engine, evs: seq<Event>)
    requires Valid(e) && forall i | 0 <= i < |evs| :: EventValid(evs[i])
    ensures Run(e, engine, evs).changeCalls ==
      e.changeCalls + (if e.hasOnChange then TabPresses(evs) else 0)
    ensures Run(e, engine, evs).hasOnChange == e.hasOnChange
    decreases |evs|
  {
    if evs != [] {
      var next := Apply(e, engine, evs[0]);
      ApplyEffect(e, engine, evs[0]);
      assert forall i | 0 <= i < |evs[1..]| :: evs[1..][i] == evs[i + 1];
      RunNotifiesOnlyOnTab(next, engine, evs[1..]);
    }
  }

  /** The layers always show the current value: a rendered editor stays
      rendered whatever happens to it. */
  lemma {:induction false} RunRepaints(e: Editor, engine: Engine, evs: seq<Event>)
    requires Valid(e) && forall i | 0 <= i < |evs| :: EventValid(evs[i])
    requires Rendered(e, engine)
    ensures Rendered(Run(e, engine, evs), engine)
    decreases |evs|
  {
    if evs != [] {
      ApplyRepaints(e, engine, evs[0]);
      assert forall i | 0 <= i < |evs[1..]| :: evs[1..][i] == evs[i + 1];
      RunRepaints(Apply(e, engine, evs[0]), engine, evs[1..]);
    }
  }
}

=== FILE: highlighter.dfy ===
/** `highlightSyntax`: pool the rules' matches, sort them by start, drop the
    overlapping ones, and rebuild the text as escaped plain gaps interleaved
    with `<span class="hl-...">` wrappers around the escaped matches. */
module Highlighter {
  import opened Patterns
  import opened Html
  import opened Matching
  import opened StableSort
  import opened Overlap

  /** The body of the opening tag of a wrapper. */
  function OpenTag(c: Category): string {
    "span class=\"hl-" + ClassName(c) + "\""
  }

  /** An opening tag's body holds no `>`, so the tag ends where it should. */
  lemma OpenTagUnbroken(c: Category)
    ensures '>' !in OpenTag(c)
  {
    ClassNameAllowed(c);
  }

  /** The body of the closing tag of a wrapper. */
  const CloseTag: string := "/span"

  /** A highlighted match: the escaped match text inside a wrapper. */
  function Wrap(c: Category, inner: string): string {
    "<" + OpenTag(c) + ">" + (inner + ("<" + CloseTag + ">"))
  }

  /** Every span lies inside a text of length `n`. */
  predicate InText(ks: seq<Candidate>, n: nat) {
    forall k | k in ks :: 0 <= k.start <= k.end <= n
  }

  /** The output loop over the kept spans, `pos` being the end of the previous
      one: the gap before a span is emitted only when the span starts after
      `pos`, and whatever follows the last span is emitted at the end. */
  function Assemble(text: string, kept: seq<Candidate>, pos: nat): string
    requires pos <= |text| && InText(kept, |text|)
    decreases |kept|
  {
    if kept == [] then
      (if pos < |text| then EscapeHtml(text[pos..]) else "")
    else
      var m := kept[0];
      assert m in kept;
      (if m.start > pos then EscapeHtml(text[pos..m.start]) else "")
      + (Wrap(m.category, EscapeHtml(text[m.start..m.end])) + Assemble(text, kept[1..], m.end))
  }

  /** The spans the highlighter keeps for a text. */
  function Tokens(text: string, scans: seq<seq<Occurrence>>): seq<Candidate>
    requires ScansValid(text, scans)
  {
    Resolve(SortByStart(Pool(scans)))
  }

  /** The markup `highlightSyntax` returns, the matches of each rule being `scans`. */
  function Highlight(text: string, scans: seq<seq<Occurrence>>): string
    requires ScansValid(text, scans)
  {
    TokensShape(text, scans);
    Assemble(text, Tokens(text, scans), 0)
  }

  /** The kept spans lie in the text, do not overlap, start at strictly
      increasing offsets, and each is a match one of the rules found. */
  lemma TokensShape(text: string, scans: seq<seq<Occurrence>>)
    requires ScansValid(text, scans)
    ensures Chained(Tokens(text, scans))
    ensures forall k | k in Tokens(text, scans) :: Within(k, |text|)
    ensures InText(Tokens(text, scans), |text|)
    ensures forall i, j | 0 <= i < j < |Tokens(text, scans)| ::
      Tokens(text, scans)[i].start < Tokens(text, scans)[j].start
    ensures forall k | k in Tokens(text, scans) :: k in Pool(scans)
  {
    var pool := Pool(scans);
    var sorted := SortByStart(pool);
    PoolShape(text, scans);
    SortSameMembers(pool);
    ResolveShape(sorted, |text|);
  }

  /** The markup as the reader sees it: each gap's characters, then the
      opening tag, the match's characters and the closing tag of each span. */
  function Layout(text: string, kept: seq<Candidate>, pos: nat): seq<Node>
    requires pos <= |text| && InText(kept, |text|)
    decreases |kept|
  {
    if kept == [] then
      (if pos < |text| then CharNodes(text[pos..]) else [])
    else
      var m := kept[0];
      assert m in kept;
      Step(GapNodes(text, pos, m.start), m.category, text[m.start..m.end], Layout(text, kept[1..], m.end))
  }

  /** The characters of the gap between `pos` and `start`, if there is one. */
  function GapNodes(text: string, pos: nat, start: int): (ns: seq<Node>)
    requires pos <= |text| && start <= |text|
    ensures TagsOf(ns) == []
    ensures pos <= start ==> TextOf(ns) == text[pos..start]
  {
    if start > pos then CharNodes(text[pos..start]) else []
  }

  lemma ReadWrap(c: Category, inner: string, rest: string)
    ensures Read(Wrap(c, EscapeHtml(inner)) + rest) ==
      [Tag(OpenTag(c))] + (CharNodes(inner) + ([Tag(CloseTag)] + Read(rest)))
  {
    var closeAndRest := "<" + CloseTag + ">" + rest;
    assert Wrap(c, EscapeHtml(inner)) + rest ==
      "<" + OpenTag(c) + ">" + (EscapeHtml(inner) + closeAndRest);
    OpenTagUnbroken(c);
    ReadTag(OpenTag(c), EscapeHtml(inner) + closeAndRest);
    ReadEscaped(inner, closeAndRest);
    ReadTag(CloseTag, rest);
  }

  /** The output loop's markup reads, in order, as each span's gap, its
      opening tag, its characters and its closing tag, then the tail. */
  lemma {:induction false} ReadAssemble(text: string, kept: seq<Candidate>, pos: nat)
    requires pos <= |text| && InText(kept, |text|)
    ensures Read(Assemble(text, kept, pos)) == Layout(text, kept, pos)
    decreases |kept|
  {
    if kept == [] {
      if pos < |text| {
        ReadEscaped(text[pos..], []);
        assert EscapeHtml(text[pos..]) + [] == EscapeHtml(text[pos..]);
      }
    } else {
      var m := kept[0];
      assert m in kept;
      var rest := Assemble(text, kept[1..], m.end);
      var wrapped := Wrap(m.category, EscapeHtml(text[m.start..m.end])) + rest;
      ReadAssemble(text, kept[1..], m.end);
      ReadWrap(m.category, text[m.start..m.end], rest);
      if m.start > pos {
        ReadEscaped(text[pos..m.start], wrapped);
        assert Read(Assemble(text, kept, pos)) == CharNodes(text[pos..m.start]) + Read(wrapped);
      } else {
        assert Assemble(text, kept, pos) == wrapped;
        assert "" + wrapped == wrapped;
        assert [] + Read(wrapped) == Read(wrapped);
      }
    }
  }

  /** The nodes of one step of the layout: a gap, then a wrapped match. */
  function Step(gap: seq<Node>, c: Category, inner: string, tail: seq<Node>): seq<Node> {
    gap + ([Tag(OpenTag(c))] + (CharNodes(inner) + ([Tag(CloseTag)] + tail)))
  }

  lemma StepText(gap: seq<Node>, c: Category, inner: string, tail: seq<Node>)
    ensures TextOf(Step(gap, c, inner, tail)) == TextOf(gap) + (inner + TextOf(tail))
  {
    TextOfAppend([Tag(CloseTag)], tail);
    TextOfAppend(CharNodes(inner), [Tag(CloseTag)] + tail);
    TextOfAppend([Tag(OpenTag(c))], CharNodes(inner) + ([Tag(CloseTag)] + tail));
    TextOfAppend(gap, [Tag(OpenTag(c))] + (CharNodes(inner) + ([Tag(CloseTag)] + tail)));
  }

  lemma StepTags(gap: seq<Node>, c: Category, inner: string, tail: seq<Node>)
    ensures TagsOf(Step(gap, c, inner, tail)) == TagsOf(gap) + ([OpenTag(c), CloseTag] + TagsOf(tail))
  {
    TagsOfAppend([Tag(CloseTag)], tail);
    TagsOfAppend(CharNodes(inner), [Tag(CloseTag)] + tail);
    TagsOfAppend([Tag(OpenTag(c))], CharNodes(inner) + ([Tag(CloseTag)] + tail));
    TagsOfAppend(gap, [Tag(OpenTag(c))] + (CharNodes(inner) + ([Tag(CloseTag)] + tail)));
  }

  lemma ChainedTail(kept: seq<Candidate>)
    requires kept != [] && Chained(kept)
    ensures Chained(kept[1..])
    ensures kept[1..] != [] ==> kept[0].end <= kept[1].start
  {
    forall i, j | 0 <= i < j < |kept[1..]| ensures kept[1..][i].end <= kept[1..][j].start {
      assert kept[1..][i] == kept[i + 1] && kept[1..][j] == kept[j + 1];
    }
  }

  lemma SliceSplit(text: string, a: nat, b: nat)
    requires a <= b <= |text|
    ensures text[a..] == text[a..b] + text[b..]
  {
  }

  /** Concatenating the characters of the gaps and of the matches, in order,
      gives back the text from `pos` on. */
  lemma {:induction false} LayoutText(text: string, kept: seq<Candidate>, pos: nat)
    requires pos <= |text| && InText(kept, |text|) && Chained(kept)
    requires kept != [] ==> pos <= kept[0].start
    ensures TextOf(Layout(text, kept, pos)) == text[pos..]
    decreases |kept|
  {
    if kept != [] {
      var m := kept[0];
      assert m in kept;
      var tail := Layout(text, kept[1..], m.end);
      ChainedTail(kept);
      LayoutText(text, kept[1..], m.end);
      StepText(GapNodes(text, pos, m.start), m.category, text[m.start..m.end], tail);
      SliceSplit(text, pos, m.start);
      SliceSplit(text, m.start, m.end);
    } else if pos == |text| {
      assert text[pos..] == [];
    }
  }

  /** The opening and closing tag of each kept span, in order. */
  function WrapperTags(kept: seq<Candidate>): (tags: seq<string>)
    ensures |tags| == 2 * |kept|
    ensures forall t | t in tags :: t == CloseTag || exists k | k in kept :: t == OpenTag(k.category)
  {
    if kept == [] then []
    else
      var t := WrapperTags(kept[1..]);
      assert forall k | k in kept[1..] :: k in kept;
      [OpenTag(kept[0].category), CloseTag] + t
  }

  lemma {:induction false} LayoutTags(text: string, kept: seq<Candidate>, pos: nat)
    requires pos <= |text| && InText(kept, |text|)
    ensures TagsOf(Layout(text, kept, pos)) == WrapperTags(kept)
    decreases |kept|
  {
    if kept != [] {
      var m := kept[0];
      assert m in kept;
      var tail := Layout(text, kept[1..], m.end);
      LayoutTags(text, kept[1..], m.end);
      StepTags(GapNodes(text, pos, m.start), m.category, text[m.start..m.end], tail);
    }
  }

  /** Lossless round trip: dropping the wrappers and decoding the entities of
      the highlighted markup gives back exactly the original text. */
  lemma HighlightRoundTrip(text: string, scans: seq<seq<Occurrence>>)
    requires ScansValid(text, scans)
    ensures TextContent(Highlight(text, scans)) == text
  {
    var kept := Tokens(text, scans);
    TokensShape(text, scans);
    ReadAssemble(text, kept, 0);
    if kept != [] {
      assert kept[0] in kept;
    }
    LayoutText(text, kept, 0);
  }

  /** The whole markup in source order: for each kept span, the characters
      of the gap before it, its opening tag, its characters and its closing
      tag, and after the last span the rest of the text. */
  lemma HighlightLayout(text: string, scans: seq<seq<Occurrence>>)
    requires ScansValid(text, scans)
    ensures InText(Tokens(text, scans), |text|) &&
      Read(Highlight(text, scans)) == Layout(text, Tokens(text, scans), 0)
  {
    TokensShape(text, scans);
    ReadAssemble(text, Tokens(text, scans), 0);
  }

  /** The only tags in the markup are the wrappers of the kept spans, in
      order, and each opening tag carries the class `hl-` followed by one of
      the eight declared class names. */
  lemma HighlightTags(text: string, scans: seq<seq<Occurrence>>)
    requires ScansValid(text, scans)
    ensures Tags(Highlight(text, scans)) == WrapperTags(Tokens(text, scans))
    ensures forall t | t in Tags(Highlight(text, scans)) ::
      t == "/span" || exists name | name in ClassNames :: t == "span class=\"hl-" + name + "\""
  {
    var kept := Tokens(text, scans);
    TokensShape(text, scans);
    ReadAssemble(text, kept, 0);
    LayoutTags(text, kept, 0);
    var tags := WrapperTags(kept);
    forall t | t in tags
      ensures t == "/span" || exists name | name in ClassNames :: t == "span class=\"hl-" + name + "\""
    {
      if t != CloseTag {
        var k :| k in kept && t == OpenTag(k.category);
        ClassNameAllowed(k.category);
      }
    }
  }

  /** With no candidates at all the output is the escaped text and nothing else. */
  lemma NoCandidatesIsEscape(text: string, scans: seq<seq<Occurrence>>)
    requires ScansValid(text, scans)
    requires Pool(scans) == []
    ensures Highlight(text, scans) == EscapeHtml(text)
  {
    assert Tokens(text, scans) == [];
    if text == [] {
      assert EscapeHtml(text) == "";
    } else {
      assert text[0..] == text;
    }
  }

  /** Ties go to the earlier-declared rule: no rule declared before a kept
      span's rule has a match starting where the kept span starts. */
  lemma EarlierRuleWins(text: string, scans: seq<seq<Occurrence>>)
    requires ScansValid(text, scans)
    ensures forall k, i, j | k in Tokens(text, scans) && 0 <= i < Priority(k.category) && 0 <= j < |scans[i]| ::
      scans[i][j].start != k.start
  {
    var pool := Pool(scans);
    var sorted := SortByStart(pool);
    PoolShape(text, scans);
    SortKeepsTieOrder(pool);
    SortSameMembers(pool);
    KeepTieWinner(sorted, -1);
    PoolComplete(scans);
    forall k, i, j | k in Tokens(text, scans) && 0 <= i < Priority(k.category) && 0 <= j < |scans[i]|
      ensures scans[i][j].start != k.start
    {
      assert Entry(scans, i, j) in sorted;
      PriorityOfDeclared(i);
    }
  }

  /** Greedy claiming: every match of every rule is either kept or starts
      inside a kept span that starts no later than it does. */
  lemma GreedyClaim(text: string, scans: seq<seq<Occurrence>>)
    requires ScansValid(text, scans)
    ensures forall i, j | 0 <= i < |scans| && 0 <= j < |scans[i]| ::
      Entry(scans, i, j) in Tokens(text, scans) ||
      exists k | k in Tokens(text, scans) :: k.start <= Entry(scans, i, j).start < k.end
  {
    var pool := Pool(scans);
    var sorted := SortByStart(pool);
    PoolShape(text, scans);
    SortSameMembers(pool);
    ResolveCovers(sorted);
    PoolComplete(scans);
  }
}

=== FILE: html.dfy ===
/** HTML escaping as `escapeHtml` does it, and the model's own reader for the
    markup the highlighter produces: it splits markup into characters (decoding
    the three entities the escaper writes) and tags. A browser parses such
    markup the same way as long as every `&` starts one of those entities,
    every `<` starts a wrapper tag, and the markup holds no CR or U+0000. */
module Html {

  /** `s` with every occurrence of `c` replaced by `rep`: what
      `String.prototype.replace` does with a global one-character pattern. */
  function ReplaceAll(s: string, c: char, rep: string): (r: string)
    ensures forall d | d in r :: (d in s && d != c) || d in rep
    ensures c !in s ==> r == s
  {
    if s == [] then []
    else (if s[0] == c then rep else [s[0]]) + ReplaceAll(s[1..], c, rep)
  }

  /** Replacing distributes over concatenation. */
  lemma {:induction false} ReplaceAllAppend(a: string, b: string, c: char, rep: string)
    ensures ReplaceAll(a + b, c, rep) == ReplaceAll(a, c, rep) + ReplaceAll(b, c, rep)
  {
    if a != [] {
      var h := if a[0] == c then rep else [a[0]];
      assert (a + b)[0] == a[0];
      assert (a + b)[1..] == a[1..] + b;
      assert ReplaceAll(a + b, c, rep) == h + ReplaceAll(a[1..] + b, c, rep);
      ReplaceAllAppend(a[1..], b, c, rep);
      assert ReplaceAll(a, c, rep) == h + ReplaceAll(a[1..], c, rep);
    } else {
      assert a + b == b;
    }
  }

  /** The escape of one character: the three reserved characters become their
      entities, every other character stands for itself. */
  function EscapeChar(c: char): string {
    if c == '&' then "&amp;"
    else if c == '<' then "&lt;"
    else if c == '>' then "&gt;"
    else [c]
  }

  /** Reference escape: each character escaped on its own, in order. */
  function EscapeEach(s: string): (r: string)
    ensures |r| >= |s|
    ensures '<' !in r && '>' !in r
  {
    if s == [] then [] else EscapeChar(s[0]) + EscapeEach(s[1..])
  }

  /** `escapeHtml`: three global replacements, `&` first so that the
      ampersands the later passes introduce are not escaped again. */
  function EscapeHtml(s: string): (r: string)
    ensures '<' !in r && '>' !in r
    ensures '&' !in s && '<' !in s && '>' !in s ==> r == s
  {
    ReplaceAll(ReplaceAll(ReplaceAll(s, '&', "&amp;"), '<', "&lt;"), '>', "&gt;")
  }

  /** The three passes amount to escaping each character on its own: `&`
      becomes `&amp;`, `<` becomes `&lt;`, `>` becomes `&gt;` and every other
      character is left as it is. */
  lemma {:induction false} EscapeHtmlIsPerCharacter(s: string)
    ensures EscapeHtml(s) == EscapeEach(s)
  {
    if s != [] {
      var c, t := s[0], s[1..];
      assert s == [c] + t;
      var p1, q1 := ReplaceAll([c], '&', "&amp;"), ReplaceAll(t, '&', "&amp;");
      ReplaceAllAppend([c], t, '&', "&amp;");
      var p2, q2 := ReplaceAll(p1, '<', "&lt;"), ReplaceAll(q1, '<', "&lt;");
      ReplaceAllAppend(p1, q1, '<', "&lt;");
      ReplaceAllAppend(p2, q2, '>', "&gt;");
      EscapeOneCharacter(c);
      EscapeHtmlIsPerCharacter(t);
    } else {
      assert EscapeHtml(s) == [];
    }
  }

  lemma EscapeOneCharacter(c: char)
    ensures EscapeHtml([c]) == EscapeChar(c)
  {
    var p1 := ReplaceAll([c], '&', "&amp;");
    var p2 := ReplaceAll(p1, '<', "&lt;");
    if c == '&' {
      assert p1 == "&amp;";
    } else if c == '<' {
      assert p2 == "&lt;";
    } else if c == '>' {
      assert p2 == ">";
    } else {
      assert p2 == [c];
    }
  }

  /** One unit of markup as the reader sees it. */
  datatype Node = Char(c: char) | Tag(body: string)

  /** The index of the first `>` at or after `i`, or `|s|` when there is none. */
  function TagClose(s: string, i: nat): (j: nat)
    requires i <= |s|
    ensures i <= j <= |s|
    ensures j < |s| ==> s[j] == '>'
    ensures forall k | i <= k < j :: s[k] != '>'
    decreases |s| - i
  {
    if i == |s| || s[i] == '>' then i else TagClose(s, i + 1)
  }

  /** Reads markup left to right: `<...>` is a tag, `&amp;`, `&lt;` and `&gt;`
      are the characters they stand for, anything else is itself. */
  function Read(s: string): seq<Node>
    decreases |s|
  {
    if s == [] then []
    else if s[0] == '<' && TagClose(s, 1) < |s| then
      var j := TagClose(s, 1);
      [Tag(s[1..j])] + Read(s[j + 1..])
    else if |s| >= 5 && s[..5] == "&amp;" then [Char('&')] + Read(s[5..])
    else if |s| >= 4 && s[..4] == "&lt;" then [Char('<')] + Read(s[4..])
    else if |s| >= 4 && s[..4] == "&gt;" then [Char('>')] + Read(s[4..])
    else [Char(s[0])] + Read(s[1..])
  }

  /** The characters among the nodes, in order. */
  function TextOf(ns: seq<Node>): string {
    if ns == [] then []
    else (if ns[0].Char? then [ns[0].c] else []) + TextOf(ns[1..])
  }

  /** The tag bodies among the nodes, in order. */
  function TagsOf(ns: seq<Node>): seq<string> {
    if ns == [] then []
    else (if ns[0].Tag? then [ns[0].body] else []) + TagsOf(ns[1..])
  }

  lemma {:induction false} TextOfAppend(a: seq<Node>, b: seq<Node>)
    ensures TextOf(a + b) == TextOf(a) + TextOf(b)
  {
    if a != [] {
      assert (a + b)[0] == a[0];
      assert (a + b)[1..] == a[1..] + b;
      TextOfAppend(a[1..], b);
    } else {
      assert a + b == b;
    }
  }

  lemma {:induction false} TagsOfAppend(a: seq<Node>, b: seq<Node>)
    ensures TagsOf(a + b) == TagsOf(a) + TagsOf(b)
  {
    if a != [] {
      assert (a + b)[0] == a[0];
      assert (a + b)[1..] == a[1..] + b;
      TagsOfAppend(a[1..], b);
    } else {
      assert a + b == b;
    }
  }

  /** The text of the markup as the reader decodes it, tags dropped. */
  function TextContent(markup: string): string {
    TextOf(Read(markup))
  }

  /** The tags of the markup, without their angle brackets. */
  function Tags(markup: string): seq<string> {
    TagsOf(Read(markup))
  }

  /** The character nodes of a plain string. */
  function CharNodes(x: string): (ns: seq<Node>)
    ensures TextOf(ns) == x && TagsOf(ns) == []
  {
    if x == [] then [] else [Char(x[0])] + CharNodes(x[1..])
  }

  /** Reading escaped text gives back exactly its characters, and never a tag,
      whatever follows it. */
  lemma {:induction false} ReadEscaped(x: string, rest: string)
    ensures Read(EscapeHtml(x) + rest) == CharNodes(x) + Read(rest)
  {
    EscapeHtmlIsPerCharacter(x);
    ReadEscapeEach(x, rest);
  }

  lemma {:induction false} ReadEscapeEach(x: string, rest: string)
    ensures Read(EscapeEach(x) + rest) == CharNodes(x) + Read(rest)
  {
    if x != [] {
      var tail := EscapeEach(x[1..]) + rest;
      assert EscapeEach(x) + rest == EscapeChar(x[0]) + tail;
      ReadEscapeChar(x[0], tail);
      ReadEscapeEach(x[1..], rest);
    } else {
      assert EscapeEach(x) + rest == rest;
    }
  }

  lemma ReadEscapeChar(c: char, tail: string)
    ensures Read(EscapeChar(c) + tail) == [Char(c)] + Read(tail)
  {
    var s := EscapeChar(c) + tail;
    if c == '&' {
      assert s[..5] == "&amp;" && s[5..] == tail;
    } else if c == '<' {
      assert s[1] == 'l';
      assert |s| >= 5 ==> s[..5] != "&amp;" by {
        if |s| >= 5 { assert s[..5][1] == 'l'; }
      }
      assert s[..4] == "&lt;" && s[4..] == tail;
    } else if c == '>' {
      assert s[1] == 'g';
      assert |s| >= 5 ==> s[..5] != "&amp;" by {
        if |s| >= 5 { assert s[..5][1] == 'g'; }
      }
      assert s[..4] != "&lt;" by { assert s[..4][1] == 'g'; }
      assert s[..4] == "&gt;" && s[4..] == tail;
    } else {
      assert s[0] == c && s[1..] == tail;
      assert |s| >= 5 ==> s[..5] != "&amp;" by {
        if |s| >= 5 { assert s[..5][0] == c; }
      }
      assert |s| >= 4 ==> s[..4] != "&lt;" && s[..4] != "&gt;" by {
        if |s| >= 4 { assert s[..4][0] == c; }
      }
    }
  }

  /** A tag whose body holds no `>` is read as exactly that tag. */
  lemma ReadTag(body: string, rest: string)
    requires '>' !in body
    ensures Read("<" + body + ">" + rest) == [Tag(body)] + Read(rest)
  {
    var s := "<" + body + ">" + rest;
    var j := TagClose(s, 1);
    assert s[1 + |body|] == '>';
    forall k | 1 <= k < 1 + |body| ensures s[k] != '>' {
      assert s[k] == body[k - 1];
    }
    assert j == 1 + |body|;
    assert s[1..j] == body;
    assert s[j + 1..] == rest;
  }

  /** Unescaping the escape gives back the input: the escaper loses nothing. */
  lemma EscapeRoundTrip(s: string)
    ensures TextContent(EscapeHtml(s)) == s
    ensures Tags(EscapeHtml(s)) == []
  {
    ReadEscaped(s, []);
    var e := EscapeHtml(s);
    assert e + [] == e;
    assert Read(e) == CharNodes(s);
  }
}

=== FILE: lines.dfy ===
/** The line-number gutter: `text.split('\n').length` lines, labelled 1, 2, ... */
module Lines {
  import Html

  /** `s.split('\n')`: the pieces between newlines, including the empty piece
      after a trailing newline and the single empty piece of the empty string. */
  function Split(s: string): (lines: seq<string>)
    ensures |lines| >= 1
    ensures forall i | 0 <= i < |lines| :: '\n' !in lines[i]
  {
    if s == [] then [""]
    else
      var t := Split(s[1..]);
      if s[0] == '\n' then [""] + t
      else
        assert forall i | 1 <= i < |t| :: t[i] == t[1..][i - 1];
        [[s[0]] + t[0]] + t[1..]
  }

  /** The pieces glued back together with a newline between each two. */
  function Join(lines: seq<string>): string
    requires |lines| >= 1
  {
    if |lines| == 1 then lines[0] else lines[0] + "\n" + Join(lines[1..])
  }

  /** How many newline characters `s` holds. */
  function CountNewlines(s: string): nat {
    if s == [] then 0 else (if s[0] == '\n' then 1 else 0) + CountNewlines(s[1..])
  }

  /** Splitting loses nothing: joining the pieces gives back the text. */
  lemma {:induction false} SplitJoin(s: string)
    ensures Join(Split(s)) == s
  {
    if s != [] {
      var t := Split(s[1..]);
      SplitJoin(s[1..]);
      assert s == [s[0]] + s[1..];
      if s[0] != '\n' && |t| > 1 {
        assert Join(t) == t[0] + "\n" + Join(t[1..]);
      }
    }
  }

  /** There is one more piece than there are newlines. */
  lemma {:induction false} SplitCount(s: string)
    ensures |Split(s)| == CountNewlines(s) + 1
  {
    if s != [] {
      SplitCount(s[1..]);
    }
  }

  /** The gutter's line count: the empty text still has one line. */
  function LineCount(s: string): (n: nat)
    ensures n == CountNewlines(s) + 1
  {
    SplitCount(s);
    |Split(s)|
  }

  /** The labels 1, 2, ..., n, one per line. */
  function LineLabels(n: nat): (labels: seq<nat>)
    ensures |labels| == n
    ensures forall i | 0 <= i < n :: labels[i] == i + 1
  {
    seq(n, i => i + 1)
  }

  /** Two worked examples: the empty text has one line, and `a\nb\nc` has three. */
  lemma LineCountExamples()
    ensures LineCount("") == 1
    ensures LineCount("a\nb\nc") == 3
  {
    assert CountNewlines("c") == 0;
    assert "a\nb\nc"[1..] == "\nb\nc";
    assert "\nb\nc"[1..] == "b\nc";
    assert "b\nc"[1..] == "\nc";
    assert "\nc"[1..] == "c";
  }

  /** What a textarea's `value` holds after a string is assigned to it: every
      CR LF pair becomes one LF and every remaining CR becomes LF, as HTML
      normalizes the API value of a textarea. */
  function NormalizeNewlines(s: string): (r: string)
    ensures '\r' !in r
    ensures '\r' !in s ==> r == s
    ensures CountNewlines(r) == CountNewlines(s) + CountLoneCarriageReturns(s)
    ensures WithoutLineBreaks(r) == WithoutLineBreaks(s)
  {
    if s == [] then []
    else if s[0] == '\r' then
      if |s| > 1 && s[1] == '\n' then
        assert CountNewlines(s) == 1 + CountNewlines(s[2..]) by {
          assert s[1..][0] == '\n' && s[1..][1..] == s[2..];
        }
        assert CountLoneCarriageReturns(s) == CountLoneCarriageReturns(s[2..]) by {
          assert s[1..][0] == '\n' && s[1..][1..] == s[2..];
        }
        assert WithoutLineBreaks(s) == WithoutLineBreaks(s[2..]) by {
          assert s[1..][0] == '\n' && s[1..][1..] == s[2..];
        }
        "\n" + NormalizeNewlines(s[2..])
      else "\n" + NormalizeNewlines(s[1..])
    else [s[0]] + NormalizeNewlines(s[1..])
  }

  /** How many CR characters of `s` are not followed by an LF: each of them
      starts a line of its own once the text is normalized. */
  function CountLoneCarriageReturns(s: string): nat {
    if s == [] then 0
    else (if s[0] == '\r' && (|s| == 1 || s[1] != '\n') then 1 else 0) + CountLoneCarriageReturns(s[1..])
  }

  /** `s` with every CR and LF deleted: what a line-break normalization must
      leave alone. */
  function WithoutLineBreaks(s: string): string {
    if s == [] then []
    else (if s[0] == '\r' || s[0] == '\n' then [] else [s[0]]) + WithoutLineBreaks(s[1..])
  }

  /** `s` with every CR LF pair replaced by a single LF, scanning left to
      right: the first step of the HTML standard's newline normalization. */
  function CollapseCrLf(s: string): string {
    if s == [] then []
    else if |s| > 1 && s[0] == '\r' && s[1] == '\n' then "\n" + CollapseCrLf(s[2..])
    else [s[0]] + CollapseCrLf(s[1..])
  }

  /** Normalization is the two steps the HTML standard names for a textarea's
      API value: first every CR LF pair becomes LF, then every remaining CR
      becomes LF. */
  lemma {:induction false} NormalizeIsTwoPasses(s: string)
    ensures NormalizeNewlines(s) == Html.ReplaceAll(CollapseCrLf(s), '\r', "\n")
  {
    if s != [] {
      var pair := |s| > 1 && s[0] == '\r' && s[1] == '\n';
      var rest := if pair then s[2..] else s[1..];
      var first := if pair then "\n" else [s[0]];
      assert CollapseCrLf(s) == first + CollapseCrLf(rest);
      Html.ReplaceAllAppend(first, CollapseCrLf(rest), '\r', "\n");
      NormalizeIsTwoPasses(rest);
      assert Html.ReplaceAll(first, '\r', "\n") == (if s[0] == '\r' then "\n" else [s[0]]);
    }
  }

  /** Two worked examples: a CR LF pair and a lone CR both become one LF, so
      `a\r\nb` and `a\rb` each show two gutter lines. */
  lemma NormalizeExamples()
    ensures NormalizeNewlines("a\r\nb") == "a\nb"
    ensures NormalizeNewlines("a\rb") == "a\nb"
    ensures LineCount(NormalizeNewlines("a\rb")) == 2
  {
    assert "a\r\nb"[1..] == "\r\nb";
    assert "\r\nb"[2..] == "b";
    assert "a\rb"[1..] == "\rb";
    assert "\rb"[1..] == "b";
    assert "a\nb"[1..] == "\nb";
    assert "\nb"[1..] == "b";
  }
}

=== FILE: matching.dfy ===
/** Match discovery. The regular-expression engine is not modelled: for each
    rule it supplies the list of occurrences `re.exec` finds in the text, and
    the model states what such a list always satisfies. The occurrences of all
    rules are then pooled into one list of candidates, rule by rule in
    declaration order. */
module Matching {
  import opened Patterns

  /** One regular-expression match: `[start, end)` over the text. */
  datatype Occurrence = Occurrence(start: int, end: int)

  /** A pooled match with the category of the rule that found it. Its text is
      the slice `[start, end)` of the highlighted text. */
  datatype Candidate = Candidate(start: int, end: int, category: Category)

  /** What a global `re.exec` loop yields for one rule: non-empty matches inside
      the text, ascending and not overlapping each other. */
  predicate ScanValid(text: string, occs: seq<Occurrence>) {
    && (forall i | 0 <= i < |occs| :: 0 <= occs[i].start < occs[i].end <= |text|)
    && (forall i, j | 0 <= i < j < |occs| :: occs[i].end <= occs[j].start)
  }

  /** One scan per declared rule, each of them valid. */
  predicate ScansValid(text: string, scans: seq<seq<Occurrence>>) {
    |scans| == |Declared| && forall i | 0 <= i < |scans| :: ScanValid(text, scans[i])
  }

  /** A candidate is a non-empty slice of the text. */
  predicate Within(c: Candidate, n: nat) {
    0 <= c.start < c.end <= n
  }

  /** Among candidates with the same start, the earlier-declared rule comes first. */
  predicate TiesInRuleOrder(cs: seq<Candidate>) {
    forall i, j | 0 <= i < j < |cs| && cs[i].start == cs[j].start ::
      Priority(cs[i].category) < Priority(cs[j].category)
  }

  /** The occurrences of one rule, labelled with its category. */
  function Labelled(occs: seq<Occurrence>, c: Category): (r: seq<Candidate>)
    ensures |r| == |occs|
    ensures forall i | 0 <= i < |occs| :: r[i] == Candidate(occs[i].start, occs[i].end, c)
  {
    if occs == [] then [] else [Candidate(occs[0].start, occs[0].end, c)] + Labelled(occs[1..], c)
  }

  /** The candidate for the `j`-th match of the `i`-th declared rule. */
  function Entry(scans: seq<seq<Occurrence>>, i: nat, j: nat): Candidate
    requires i < |scans| <= |Declared| && j < |scans[i]|
  {
    Candidate(scans[i][j].start, scans[i][j].end, Declared[i])
  }

  /** The pool built from the rules `k`, `k + 1`, ... in declaration order. */
  function PoolFrom(scans: seq<seq<Occurrence>>, k: nat): (r: seq<Candidate>)
    requires |scans| == |Declared| && k <= |scans|
    ensures forall c | c in r ::
      exists i, j | k <= i < |scans| && 0 <= j < |scans[i]| :: c == Entry(scans, i, j)
    decreases |scans| - k
  {
    if k == |scans| then []
    else
      LabelledEntries(scans, k);
      Labelled(scans[k], Declared[k]) + PoolFrom(scans, k + 1)
  }

  lemma LabelledEntries(scans: seq<seq<Occurrence>>, k: nat)
    requires |scans| == |Declared| && k < |scans|
    ensures forall c | c in Labelled(scans[k], Declared[k]) ::
      exists j | 0 <= j < |scans[k]| :: c == Entry(scans, k, j)
  {
    var a := Labelled(scans[k], Declared[k]);
    forall c | c in a ensures exists j | 0 <= j < |scans[k]| :: c == Entry(scans, k, j) {
      var j :| 0 <= j < |a| && a[j] == c;
      assert c == Entry(scans, k, j);
    }
  }

  lemma {:induction false} PoolFromComplete(scans: seq<seq<Occurrence>>, k: nat)
    requires |scans| == |Declared| && k <= |scans|
    ensures forall i, j | k <= i < |scans| && 0 <= j < |scans[i]| :: Entry(scans, i, j) in PoolFrom(scans, k)
    decreases |scans| - k
  {
    if k < |scans| {
      PoolFromComplete(scans, k + 1);
      var a := Labelled(scans[k], Declared[k]);
      forall i, j | k <= i < |scans| && 0 <= j < |scans[i]|
        ensures Entry(scans, i, j) in PoolFrom(scans, k)
      {
        if i == k {
          assert a[j] == Entry(scans, i, j);
          assert a[j] in a;
        }
      }
    }
  }

  /** Every match of every rule, each rule's matches in the order found, the
      rules in declaration order: the `matches` array before sorting. Each
      pooled candidate is a match of some rule labelled with that rule's category. */
  function Pool(scans: seq<seq<Occurrence>>): (r: seq<Candidate>)
    requires |scans| == |Declared|
    ensures forall c | c in r :: exists i, j | 0 <= i < |scans| && 0 <= j < |scans[i]| :: c == Entry(scans, i, j)
  {
    PoolFrom(scans, 0)
  }

  /** Nothing is lost: every match of every rule is in the pool, labelled with
      its rule's category. */
  lemma PoolComplete(scans: seq<seq<Occurrence>>)
    requires |scans| == |Declared|
    ensures forall i, j | 0 <= i < |scans| && 0 <= j < |scans[i]| :: Entry(scans, i, j) in Pool(scans)
  {
    PoolFromComplete(scans, 0);
  }

  /** The pool's candidates are non-empty slices of the text, and two of them
      that start together come from different rules, the earlier-declared first. */
  lemma PoolShape(text: string, scans: seq<seq<Occurrence>>)
    requires ScansValid(text, scans)
    ensures forall c | c in Pool(scans) :: Within(c, |text|)
    ensures TiesInRuleOrder(Pool(scans))
  {
    PoolFromShape(text, scans, 0);
  }

  lemma {:induction false} PoolFromShape(text: string, scans: seq<seq<Occurrence>>, k: nat)
    requires ScansValid(text, scans) && k <= |scans|
    ensures forall c | c in PoolFrom(scans, k) :: Within(c, |text|) && Priority(c.category) >= k
    ensures TiesInRuleOrder(PoolFrom(scans, k))
    decreases |scans| - k
  {
    PoolFromMembers(text, scans, k);
    if k < |scans| {
      PoolFromShape(text, scans, k + 1);
      PoolFromTies(text, scans, k);
    }
  }

  lemma PoolFromMembers(text: string, scans: seq<seq<Occurrence>>, k: nat)
    requires ScansValid(text, scans) && k <= |scans|
    ensures forall c | c in PoolFrom(scans, k) :: Within(c, |text|) && Priority(c.category) >= k
  {
    forall c | c in PoolFrom(scans, k) ensures Within(c, |text|) && Priority(c.category) >= k {
      var i, j :| k <= i < |scans| && 0 <= j < |scans[i]| && c == Entry(scans, i, j);
      assert ScanValid(text, scans[i]);
      PriorityOfDeclared(i);
    }
  }

  /** The step of the induction: this rule's matches in front of the pool of
      the later rules keep ties in rule order. */
  lemma PoolFromTies(text: string, scans: seq<seq<Occurrence>>, k: nat)
    requires ScansValid(text, scans) && k < |scans|
    requires forall c | c in PoolFrom(scans, k + 1) :: Priority(c.category) >= k + 1
    requires TiesInRuleOrder(PoolFrom(scans, k + 1))
    ensures TiesInRuleOrder(PoolFrom(scans, k))
  {
    var a := Labelled(scans[k], Declared[k]);
    var b := PoolFrom(scans, k + 1);
    var r := a + b;
    assert PoolFrom(scans, k) == r;
    LabelledAscending(text, scans[k], Declared[k]);
    PriorityOfDeclared(k);
    forall i, j | 0 <= i < j < |r|
      ensures r[i].start != r[j].start || Priority(r[i].category) < Priority(r[j].category)
    {
      if j < |a| {
        assert r[i] == a[i] && r[j] == a[j];
      } else if i < |a| {
        assert r[i] == a[i];
        assert r[j] == b[j - |a|] && r[j] in b;
      } else {
        assert r[i] == b[i - |a|] && r[j] == b[j - |a|];
      }
    }
  }

  /** One rule's matches start at strictly increasing offsets. */
  lemma LabelledAscending(text: string, occs: seq<Occurrence>, c: Category)
    requires ScanValid(text, occs)
    ensures forall i, j | 0 <= i < j < |occs| :: Labelled(occs, c)[i].start < Labelled(occs, c)[j].start
  {
    var r := Labelled(occs, c);
    forall i, j | 0 <= i < j < |occs| ensures r[i].start < r[j].start {
      assert occs[i].start < occs[i].end <= occs[j].start;
    }
  }
}

=== FILE: overlap.dfy ===
/** Overlap removal: the greedy left-to-right sweep over the sorted pool that
    keeps a candidate only if it starts at or after the end of the last kept
    one (`lastEnd` starts at -1, so the first candidate is always kept). */
module Overlap {
  import opened Patterns
  import opened Matching
  import opened StableSort

  /** Each kept span ends no later than any later one starts. */
  predicate Chained(ks: seq<Candidate>) {
    forall i, j | 0 <= i < j < |ks| :: ks[i].end <= ks[j].start
  }

  /** `a` is `b` with some elements left out, the rest in their order. */
  predicate IsSubsequence(a: seq<Candidate>, b: seq<Candidate>)
    decreases |b|
  {
    a == [] || (b != [] && ((a[0] == b[0] && IsSubsequence(a[1..], b[1..])) || IsSubsequence(a, b[1..])))
  }

  /** Every candidate covers at least one character, as every regular
      expression match of the rules does. */
  predicate NonEmpty(cs: seq<Candidate>) {
    forall c | c in cs :: c.start < c.end
  }

  /** The sweep over `cs` when the last kept candidate ended at `lastEnd`. */
  function Keep(cs: seq<Candidate>, lastEnd: int): (r: seq<Candidate>)
    ensures forall k | k in r :: k in cs
    ensures r != [] ==> r[0].start >= lastEnd
    ensures NonEmpty(cs) ==> Chained(r) && forall k | k in r :: k.start >= lastEnd
  {
    if cs == [] then []
    else if cs[0].start >= lastEnd then
      var t := Keep(cs[1..], cs[0].end);
      assert forall j | 0 < j < |[cs[0]] + t| :: ([cs[0]] + t)[j] == t[j - 1] && t[j - 1] in t;
      assert NonEmpty(cs) ==> NonEmpty(cs[1..]);
      [cs[0]] + t
    else
      assert NonEmpty(cs) ==> NonEmpty(cs[1..]);
      Keep(cs[1..], lastEnd)
  }

  /** The `filtered` array: the sweep started with `lastEnd` at -1. */
  function Resolve(cs: seq<Candidate>): (r: seq<Candidate>)
    ensures forall k | k in r :: k in cs
    ensures cs != [] && cs[0].start >= 0 ==> r != [] && r[0] == cs[0]
    ensures NonEmpty(cs) && (forall k | k in cs :: k.start >= 0) ==> Chained(r)
  {
    Keep(cs, -1)
  }

  /** The sweep's `lastEnd` after it has kept `kept`, having started at `lastEnd`. */
  function Frontier(kept: seq<Candidate>, lastEnd: int): int {
    if kept == [] then lastEnd else kept[|kept| - 1].end
  }

  lemma {:induction false} KeepSnoc(cs: seq<Candidate>, c: Candidate, lastEnd: int)
    ensures Keep(cs + [c], lastEnd) ==
      var k := Keep(cs, lastEnd);
      if c.start >= Frontier(k, lastEnd) then k + [c] else k
  {
    if cs == [] {
      assert cs + [c] == [c];
      assert Keep([c], lastEnd) == if c.start >= lastEnd then [c] else [];
    } else {
      var d := cs[0];
      var rest := cs[1..];
      assert (cs + [c])[0] == d && (cs + [c])[1..] == rest + [c];
      if d.start >= lastEnd {
        assert Keep(cs + [c], lastEnd) == [d] + Keep(rest + [c], d.end);
        KeepSnoc(rest, c, d.end);
        var k' := Keep(rest, d.end);
        assert Keep(cs, lastEnd) == [d] + k';
        assert Frontier([d] + k', lastEnd) == Frontier(k', d.end);
        assert [d] + (k' + [c]) == ([d] + k') + [c];
      } else {
        assert Keep(cs + [c], lastEnd) == Keep(rest + [c], lastEnd);
        assert Keep(cs, lastEnd) == Keep(rest, lastEnd);
        KeepSnoc(rest, c, lastEnd);
      }
    }
  }

  /** The filter in the order the source runs it: appending a candidate to the
      sorted list keeps it exactly when it starts at or after the end of the
      last kept candidate (or when nothing is kept yet, since -1 is below every
      start), and otherwise leaves the kept list as it was. */
  lemma ResolveStep(cs: seq<Candidate>, c: Candidate)
    ensures Resolve(cs + [c]) ==
      var k := Resolve(cs);
      if c.start >= Frontier(k, -1) then k + [c] else k
  {
    KeepSnoc(cs, c, -1);
  }

  lemma {:induction false} KeepIsSubsequence(cs: seq<Candidate>, lastEnd: int)
    ensures IsSubsequence(Keep(cs, lastEnd), cs)
  {
    if cs != [] {
      if cs[0].start >= lastEnd {
        KeepIsSubsequence(cs[1..], cs[0].end);
        var r := Keep(cs, lastEnd);
        assert r[0] == cs[0] && r[1..] == Keep(cs[1..], cs[0].end);
      } else {
        KeepIsSubsequence(cs[1..], lastEnd);
      }
    }
  }

  /** The kept spans are a subsequence of the sorted candidates, pairwise
      disjoint and in strictly increasing start order, and a non-empty list
      always keeps its first candidate. */
  lemma ResolveShape(cs: seq<Candidate>, n: nat)
    requires forall c | c in cs :: Within(c, n)
    ensures IsSubsequence(Resolve(cs), cs)
    ensures Chained(Resolve(cs))
    ensures forall k | k in Resolve(cs) :: Within(k, n)
    ensures forall i, j | 0 <= i < j < |Resolve(cs)| :: Resolve(cs)[i].start < Resolve(cs)[j].start
    ensures cs != [] ==> Resolve(cs) != [] && Resolve(cs)[0] == cs[0]
  {
    KeepIsSubsequence(cs, -1);
    assert NonEmpty(cs);
    var r := Resolve(cs);
    forall i, j | 0 <= i < j < |r| ensures r[i].start < r[j].start {
      assert r[i] in cs;
      assert r[i].start < r[i].end <= r[j].start;
    }
    if cs != [] {
      assert cs[0] in cs;
    }
  }

  /** Greedy coverage: on a list sorted by start, every candidate the sweep
      drops begins inside a kept span that starts no later than it does (or
      before the `lastEnd` the sweep began with). */
  lemma {:induction false} KeepCovers(cs: seq<Candidate>, lastEnd: int)
    requires SortedByStart(cs)
    ensures forall c | c in cs ::
      c in Keep(cs, lastEnd) || c.start < lastEnd ||
      exists k | k in Keep(cs, lastEnd) :: k.start <= c.start < k.end
  {
    if cs != [] {
      var d := cs[0];
      var rest := cs[1..];
      assert SortedByStart(rest) by {
        forall i, j | 0 <= i < j < |rest| ensures rest[i].start <= rest[j].start {
          assert rest[i] == cs[i + 1] && rest[j] == cs[j + 1];
        }
      }
      assert forall c | c in rest :: d.start <= c.start by {
        forall c | c in rest ensures d.start <= c.start {
          var m :| 0 <= m < |rest| && rest[m] == c;
          assert cs[m + 1] == c;
        }
      }
      assert cs == [d] + rest;
      if d.start >= lastEnd {
        KeepCovers(rest, d.end);
        var r := Keep(cs, lastEnd);
        assert r == [d] + Keep(rest, d.end);
        forall c | c in cs
          ensures c in r || c.start < lastEnd || exists k | k in r :: k.start <= c.start < k.end
        {
          if c != d && c !in r {
            assert c in rest;
            if c.start < d.end {
              assert d in r && d.start <= c.start < d.end;
            } else {
              var k :| k in Keep(rest, d.end) && k.start <= c.start < k.end;
              assert k in r;
            }
          }
        }
      } else {
        KeepCovers(rest, lastEnd);
      }
    }
  }

  /** On a sorted list every dropped candidate overlaps a kept span that starts
      no later than it: the kept list cannot be extended by any candidate. */
  lemma ResolveCovers(cs: seq<Candidate>)
    requires SortedByStart(cs)
    requires forall c | c in cs :: c.start >= 0
    ensures forall c | c in cs ::
      c in Resolve(cs) || exists k | k in Resolve(cs) :: k.start <= c.start < k.end
  {
    KeepCovers(cs, -1);
  }

  /** Ties go to the earlier-declared rule: if a kept span starts where some
      other candidate starts, the kept span's rule is declared no later. */
  lemma {:induction false} KeepTieWinner(cs: seq<Candidate>, lastEnd: int)
    requires TiesInRuleOrder(cs)
    requires NonEmpty(cs)
    ensures forall k, c | k in Keep(cs, lastEnd) && c in cs && c.start == k.start ::
      Priority(k.category) <= Priority(c.category)
  {
    if cs != [] {
      var d := cs[0];
      var rest := cs[1..];
      assert cs == [d] + rest;
      TiesInTail(cs);
      assert NonEmpty(rest);
      assert forall c | c in rest && c.start == d.start :: Priority(d.category) < Priority(c.category) by {
        forall c | c in rest && c.start == d.start ensures Priority(d.category) < Priority(c.category) {
          var m :| 0 <= m < |rest| && rest[m] == c;
          assert cs[m + 1] == c;
        }
      }
      if d.start >= lastEnd {
        KeepTieWinner(rest, d.end);
        var r := Keep(cs, lastEnd);
        assert r == [d] + Keep(rest, d.end);
        forall k, c | k in r && c in cs && c.start == k.start
          ensures Priority(k.category) <= Priority(c.category)
        {
          if k != d {
            assert k in Keep(rest, d.end) && k.start >= d.end;
            assert d.start < d.end;
            assert c != d && c in rest;
          }
        }
      } else {
        KeepTieWinner(rest, lastEnd);
        forall k, c | k in Keep(cs, lastEnd) && c in cs && c.start == k.start
          ensures Priority(k.category) <= Priority(c.category)
        {
          assert k in Keep(rest, lastEnd) && k.start >= lastEnd;
          assert c != d && c in rest;
        }
      }
    }
  }
}

=== FILE: patterns.dfy ===
/** The eight highlighting rules of the Mermaid highlighter, in declaration
    order. Only the category each rule attaches is modelled here; the regular
    expression that finds a rule's occurrences is an input (module Matching). */
module Patterns {

  /** The category label a rule attaches to each of its matches. */
  datatype Category =
    | Comment        // `%%` up to the end of the line
    | Keyword        // the diagram type: graph, flowchart, sequenceDiagram, ...
    | Direction      // TD, TB, BT, RL, LR
    | Control        // subgraph, end, if, else, loop, participant, ...
    | Arrow          // -->, ---, ==>, ->, ...
    | StringLiteral  // "..."
    | Label          // [...]
    | Decision       // {...}

  /** The rules in the order they are declared; an earlier rule wins a tie. */
  const Declared: seq<Category> :=
    [Comment, Keyword, Direction, Control, Arrow, StringLiteral, Label, Decision]

  /** The only class names the highlighter may ever emit (after the `hl-` prefix). */
  const ClassNames: set<string> :=
    {"comment", "keyword", "direction", "control", "arrow", "string", "label", "decision"}

  /** The `className` of a rule: the stylesheet sees it as the class `hl-<name>`. */
  function ClassName(c: Category): string {
    match c
    case Comment => "comment"
    case Keyword => "keyword"
    case Direction => "direction"
    case Control => "control"
    case Arrow => "arrow"
    case StringLiteral => "string"
    case Label => "label"
    case Decision => "decision"
  }

  /** Every class name is one of the allowed ones and cannot end a tag or an
      attribute value. */
  lemma ClassNameAllowed(c: Category)
    ensures ClassName(c) in ClassNames
    ensures '>' !in ClassName(c) && '"' !in ClassName(c)
  {
  }

  /** Position of a category's rule in the declaration order. */
  function Priority(c: Category): (i: nat)
    ensures i < |Declared| && Declared[i] == c
  {
    match c
    case Comment => 0
    case Keyword => 1
    case Direction => 2
    case Control => 3
    case Arrow => 4
    case StringLiteral => 5
    case Label => 6
    case Decision => 7
  }

  /** Every rule is declared once, so the declaration index of the rule at
      position `i` is `i` itself. */
  lemma PriorityOfDeclared(i: nat)
    requires i < |Declared|
    ensures Priority(Declared[i]) == i
  {
  }

  /** Distinct categories have distinct class names, and every allowed class
      name belongs to some category: the labels and the rules correspond one to one. */
  lemma ClassNamesCorrespond()
    ensures forall c, d :: ClassName(c) == ClassName(d) ==> c == d
    ensures forall n :: n in ClassNames ==> exists i :: 0 <= i < |Declared| && ClassName(Declared[i]) == n
  {
    assert ClassName(Declared[0]) == "comment";
    assert ClassName(Declared[1]) == "keyword";
    assert ClassName(Declared[2]) == "direction";
    assert ClassName(Declared[3]) == "control";
    assert ClassName(Declared[4]) == "arrow";
    assert ClassName(Declared[5]) == "string";
    assert ClassName(Declared[6]) == "label";
    assert ClassName(Declared[7]) == "decision";
  }
}

=== FILE: stable_sort.dfy ===
/** The pool ordered by start offset with a comparison on starts alone.
    JavaScript's array sort is stable, so candidates that start together keep
    their pool order; the model sorts by insertion, which is stable too. */
module StableSort {
  import opened Patterns
  import opened Matching

  predicate SortedByStart(cs: seq<Candidate>) {
    forall i, j | 0 <= i < j < |cs| :: cs[i].start <= cs[j].start
  }

  /** The candidates starting at offset `k`, in their order in `cs`. */
  function WithStart(cs: seq<Candidate>, k: int): (r: seq<Candidate>)
    ensures forall c | c in r :: c in cs && c.start == k
  {
    if cs == [] then []
    else (if cs[0].start == k then [cs[0]] else []) + WithStart(cs[1..], k)
  }

  /** Puts `c` in front of the first element that starts no earlier than it. */
  function Insert(c: Candidate, s: seq<Candidate>): (r: seq<Candidate>)
    ensures multiset(r) == multiset(s) + multiset{c}
    ensures SortedByStart(s) ==> SortedByStart(r)
  {
    if s == [] || c.start <= s[0].start then
      assert SortedByStart(s) ==> SortedByStart([c] + s) by {
        if SortedByStart(s) {
          forall i, j | 0 <= i < j < |[c] + s| ensures ([c] + s)[i].start <= ([c] + s)[j].start {
            if i > 0 { assert ([c] + s)[i] == s[i - 1]; }
            assert ([c] + s)[j] == s[j - 1];
          }
        }
      }
      [c] + s
    else
      var t := Insert(c, s[1..]);
      assert s == [s[0]] + s[1..];
      InsertSortedStep(c, s, t);
      [s[0]] + t
  }

  lemma InsertSortedStep(c: Candidate, s: seq<Candidate>, t: seq<Candidate>)
    requires s != [] && s[0].start < c.start
    requires multiset(t) == multiset(s[1..]) + multiset{c}
    requires SortedByStart(s[1..]) ==> SortedByStart(t)
    ensures SortedByStart(s) ==> SortedByStart([s[0]] + t)
  {
    if SortedByStart(s) {
      var r := [s[0]] + t;
      forall i, j | 0 <= i < j < |r| ensures r[i].start <= r[j].start {
        if i == 0 {
          assert r[j] == t[j - 1] && r[j] in multiset(t);
          if r[j] != c {
            assert r[j] in s[1..];
            var m :| 0 <= m < |s[1..]| && s[1..][m] == r[j];
            assert s[m + 1] == r[j];
          }
        } else {
          assert SortedByStart(s[1..]) by {
            forall p, q | 0 <= p < q < |s[1..]| ensures s[1..][p].start <= s[1..][q].start {
              assert s[1..][p] == s[p + 1] && s[1..][q] == s[q + 1];
            }
          }
          assert r[i] == t[i - 1] && r[j] == t[j - 1];
        }
      }
    }
  }

  /** The sorted pool: ordered by start, and a permutation of its input. */
  function SortByStart(cs: seq<Candidate>): (r: seq<Candidate>)
    ensures SortedByStart(r)
    ensures multiset(r) == multiset(cs)
  {
    if cs == [] then []
    else
      assert cs == [cs[0]] + cs[1..];
      Insert(cs[0], SortByStart(cs[1..]))
  }

  /** Sorting neither adds nor drops a candidate. */
  lemma SortSameMembers(cs: seq<Candidate>)
    ensures forall c :: c in SortByStart(cs) <==> c in cs
  {
    forall c ensures c in SortByStart(cs) <==> c in cs {
      assert c in SortByStart(cs) <==> c in multiset(SortByStart(cs));
      assert c in cs <==> c in multiset(cs);
    }
  }

  lemma WithStartCons(x: Candidate, s: seq<Candidate>, k: int)
    ensures WithStart([x] + s, k) == (if x.start == k then [x] else []) + WithStart(s, k)
  {
    assert ([x] + s)[0] == x && ([x] + s)[1..] == s;
  }

  lemma {:induction false} InsertWithStart(c: Candidate, s: seq<Candidate>, k: int)
    ensures WithStart(Insert(c, s), k) == WithStart([c] + s, k)
  {
    if s == [] || c.start <= s[0].start {
      assert Insert(c, s) == [c] + s;
    } else {
      var t := Insert(c, s[1..]);
      assert Insert(c, s) == [s[0]] + t;
      assert s == [s[0]] + s[1..];
      InsertWithStart(c, s[1..], k);
      WithStartCons(s[0], t, k);
      WithStartCons(c, s[1..], k);
      WithStartCons(c, s, k);
      WithStartCons(s[0], s[1..], k);
    }
  }

  /** The sort is stable: the candidates that start at any given offset keep
      their relative order. */
  lemma {:induction false} SortIsStable(cs: seq<Candidate>, k: int)
    ensures WithStart(SortByStart(cs), k) == WithStart(cs, k)
  {
    if cs != [] {
      SortIsStable(cs[1..], k);
      InsertWithStart(cs[0], SortByStart(cs[1..]), k);
      WithStartCons(cs[0], SortByStart(cs[1..]), k);
      WithStartCons(cs[0], cs[1..], k);
      assert cs == [cs[0]] + cs[1..];
    }
  }

  lemma {:induction false} InsertKeepsTieOrder(c: Candidate, s: seq<Candidate>)
    requires TiesInRuleOrder(s)
    requires forall y | y in s && y.start == c.start :: Priority(c.category) < Priority(y.category)
    ensures TiesInRuleOrder(Insert(c, s))
  {
    if s == [] || c.start <= s[0].start {
      var r := [c] + s;
      assert Insert(c, s) == r;
      forall i, j | 0 <= i < j < |r| && r[i].start == r[j].start
        ensures Priority(r[i].category) < Priority(r[j].category)
      {
        if i == 0 {
          assert r[j] == s[j - 1] && r[j] in s;
        } else {
          assert r[i] == s[i - 1] && r[j] == s[j - 1];
        }
      }
    } else {
      var t := Insert(c, s[1..]);
      assert Insert(c, s) == [s[0]] + t;
      TiesInTail(s);
      InsertKeepsTieOrder(c, s[1..]);
      TiesStep(c, s, t);
    }
  }

  lemma TiesInTail(s: seq<Candidate>)
    requires s != [] && TiesInRuleOrder(s)
    ensures TiesInRuleOrder(s[1..])
  {
    var rest := s[1..];
    forall i, j | 0 <= i < j < |rest| && rest[i].start == rest[j].start
      ensures Priority(rest[i].category) < Priority(rest[j].category)
    {
      assert rest[i] == s[i + 1] && rest[j] == s[j + 1];
    }
  }

  lemma TiesStep(c: Candidate, s: seq<Candidate>, t: seq<Candidate>)
    requires s != [] && s[0].start < c.start
    requires TiesInRuleOrder(s) && TiesInRuleOrder(t)
    requires multiset(t) == multiset(s[1..]) + multiset{c}
    ensures TiesInRuleOrder([s[0]] + t)
  {
    var r := [s[0]] + t;
    forall i, j | 0 <= i < j < |r|
      ensures r[i].start != r[j].start || Priority(r[i].category) < Priority(r[j].category)
    {
      if i == 0 {
        assert r[j] == t[j - 1] && r[j] in multiset(t);
        if r[j] != c {
          assert r[j] in s[1..];
          var m :| 0 <= m < |s[1..]| && s[1..][m] == r[j];
          assert s[m + 1] == r[j];
        }
      } else {
        assert r[i] == t[i - 1] && r[j] == t[j - 1];
      }
    }
  }

  /** Sorting a pool whose ties are in rule order keeps them so: after the
      sort, candidates that start together still appear earlier rule first. */
  lemma {:induction false} SortKeepsTieOrder(cs: seq<Candidate>)
    requires TiesInRuleOrder(cs)
    ensures TiesInRuleOrder(SortByStart(cs))
  {
    if cs != [] {
      var rest := cs[1..];
      TiesInTail(cs);
      SortKeepsTieOrder(rest);
      var sorted := SortByStart(rest);
      forall y | y in sorted && y.start == cs[0].start
        ensures Priority(cs[0].category) < Priority(y.category)
      {
        assert y in multiset(rest);
        var m :| 0 <= m < |rest| && rest[m] == y;
        assert cs[m + 1] == y;
      }
      InsertKeepsTieOrder(cs[0], sorted);
    }
  }
}
